=== FILE: README.md ===
# Booking guard and recurring-expense generator

A Dafny model of the two rule engines in a property-management application for short-term rentals.

- **Booking endpoints** (`app/api/bookings/route.ts`). Every handler first runs a role gate:
  - GET needs a session;
  - POST and PUT refuse VIEWER;
  - DELETE needs ADMIN.

  GET lists bookings, filtered by property, unit and a date window, and sorted by start date. POST and PUT refuse (409) a booking that overlaps, boundary included, another booking on the same unit. PUT leaves the booking's own id out of that check, and checks against the unit named in the request.
- **Recurring-expense generator** (`scripts/generate-fixed-expenses.ts`). It keeps the fixed-expense templates that are still active. It shifts each template's start date by whole months (MONTHLY) or years (ANNUAL) up to today and decides whether the template is due. If no generated record for it lies in the current month's de-duplication window, it creates one `"[Auto] …"` variable expense dated today. It counts what it creates.

Files and modules:
- `optional.dfy`: `Option`.
- `calendar.dfy`: day-granularity dates. It includes the date-fns operations `addMonths` and `addYears`. Their source is not part of this model, so they are *assumed* to follow the date-fns behaviour: move by whole months, and clamp the day to the target month's length. `addYears(d, n)` is `addMonths(d, 12n)`.
- `bookings.dfy`: the table is a `seq<Booking>`. Each handler is a pure function `(session, store, request) -> (status, store')`. The table invariant is `Valid`: distinct ids, and no two bookings on one unit overlapping.
- `fixed_expenses.dfy`: the generator is a left fold (`Process`) over the active templates. The accumulator is the variable-expense table plus the count. A `Policy` argument carries one flag per correction (see Findings), so each correction can be studied on its own:
  - `wholeMonthWindow`: the de-duplication window runs to the first of next month;
  - `startGuard`: a template is not due before its start date.

  `AsWritten` (neither flag) is the script itself; `Corrected` sets both.
- `scenarios.dfy`: concrete cases. They use the seed fixture's templates, and a 7–10 August request against the seed's 1–7 August stay on the same unit.

Parameters that stand in for things the model cannot see:
- the session, which the authentication library decides;
- today's date;
- the unit-to-property relation, as a map;
- the set of template ids whose store calls throw during a run.

A new booking's id is one more than any id in use. This stands in for the database's id generator; the model only relies on the id being fresh.

Three facts about the code that the model keeps as they are:
- The de-duplication window's upper bound is midnight at the start of the month's last day, not the end of the month (see Findings).
- DELETE is refused to every role but ADMIN, so STAFF is refused as well as VIEWER.
- No handler checks that a booking starts before it ends. The overlap invariant holds regardless, and the GET equivalence lemmas take well-formedness as a hypothesis.

A PUT body may leave out the guest, price, source and notes; the calendar's drag-and-drop (`app/components/BookingCalendar.tsx`) sends only the unit and the dates. Prisma's `update` keeps the stored value of a field that is left out, so the model's PUT body holds each of those four as `Omitted` or `Sent(value)`, and `notes` may be sent as `null`.

## Model

| member | source | states |
|---|---|---|
| Calendar.AddMonths | scripts/generate-fixed-expenses.ts:34 | the result is a calendar date exactly `n` months after the input, with the day clamped to the target month's length and never later than the input's day |
| Calendar.AddYears | scripts/generate-fixed-expenses.ts:35 | the result is in year `d.year + n`, in the same month, with the day clamped to that month's length |
| Calendar.MonthsDifference | scripts/generate-fixed-expenses.ts:84-87 | adding the result to the start's month index gives the current date's month index |
| Calendar.YearsDifference | scripts/generate-fixed-expenses.ts:90-92 | adding the result to the start's year gives the current year |
| Calendar.AddMonthsDifferenceLandsInMonth | scripts/generate-fixed-expenses.ts:33-34 | shifting a start date by its month difference to today always lands in today's year and month, on the start's day clamped to the month length |
| Calendar.AddYearsDifferenceLandsInYear | scripts/generate-fixed-expenses.ts:35 | shifting a start date by its year difference to today lands in today's year, in the start's month, on the clamped day |
| Calendar.LastOfMonth | scripts/generate-fixed-expenses.ts:53 | `new Date(y, m + 1, 0)` is in today's month and no date of that month has a later day (December included) |
| Bookings.Allowed | app/api/bookings/route.ts:81-83 | the role gate of each handler (GET 13-15, POST 81-83, PUT 136-138, DELETE 194-196): no session is refused everything, ADMIN is allowed everything, STAFF everything but deletion, VIEWER only reading |
| Bookings.Overlaps | app/api/bookings/route.ts:93-98 | for intervals with start <= end, the guard's `lte`/`gte` test holds exactly when the two closed intervals share an instant |
| Bookings.PrivilegesNested | app/api/bookings/route.ts:81-83 | without a session nothing is allowed; ADMIN may do everything; VIEWER may only read; every right of VIEWER is STAFF's and every right of STAFF is ADMIN's |
| Bookings.OverlapsSymmetric | app/api/bookings/route.ts:93-98 | the conflict rule `start <= otherEnd && end >= otherStart` is symmetric in the two intervals |
| Bookings.TouchingIntervalsOverlap | app/api/bookings/route.ts:93-98 | a booking starting at the instant another one ends conflicts with it |
| Bookings.GapMeansNoOverlap | app/api/bookings/route.ts:93-98 | intervals separated by a strict gap do not conflict, in either order |
| Bookings.FindOverlap | app/api/bookings/route.ts:88-102 | returns none exactly when no booking in the table is on the unit, not the excluded id, and overlapping; a returned booking is in the table, blocks the request and is on the requested unit |
| Bookings.Post | app/api/bookings/route.ts:77-129 | 401 exactly without a session or as VIEWER, with the table unchanged; an allowed POST with no overlapping booking on the unit gets 201; otherwise 409 and table unchanged exactly when some booking on the unit overlaps; on 201 the table gains one record at the end with a fresh id carrying every requested field |
| Bookings.Put | app/api/bookings/route.ts:132-187 | 401 exactly when not allowed, with the table unchanged; 409 exactly when a booking other than `id` on the requested unit overlaps; 500 exactly when there is no conflict and no booking has `id`; otherwise 200, and only the record with `id` changes: it takes the unit and dates of the body and each field the body sends, and keeps every field the body leaves out |
| Bookings.RemoveId | app/api/bookings/route.ts:200-202 | the remaining records are exactly those without the id, each kept no more often than it occurred |
| Bookings.RemoveIdKeepsUniqueIds | app/api/bookings/route.ts:200-202 | removing a booking keeps the remaining ids distinct |
| Bookings.Delete | app/api/bookings/route.ts:190-209 | only ADMIN passes the gate (401 and unchanged otherwise); a missing id gives 500 and an unchanged table; otherwise 200, the records with that id are gone and every other record is kept, none of them duplicated |
| Bookings.InRange | app/api/bookings/route.ts:35-56 | for a booking and a window both with start <= end, the three-clause OR holds exactly when the booking overlaps the window under the guard's rule |
| Bookings.Select | app/api/bookings/route.ts:23-56 | a booking is selected exactly when it is in the table and meets each given filter (property through its unit, unit, three-clause window when both bounds are given); no booking is selected more often than it occurs in the table |
| Bookings.InsertByStart | app/api/bookings/route.ts:64-66 | inserting into a start-sorted list keeps it sorted and adds exactly that booking |
| Bookings.SortByStart | app/api/bookings/route.ts:64-66 | the result is sorted by start date ascending and is a permutation of the input |
| Bookings.Get | app/api/bookings/route.ts:9-74 | without a session 401 and nothing listed; otherwise 200 with a start-ordered permutation of the selected bookings, so a booking is listed exactly when it is in the table and matches the query |
| Bookings.PostPreservesValid | app/api/bookings/route.ts:88-122 | if ids are distinct and no two bookings on one unit overlap before a POST, the same holds after it |
| Bookings.PutPreservesValid | app/api/bookings/route.ts:144-180 | if ids are distinct and no two bookings on one unit overlap before a PUT, the same holds after it, including when the booking moves to another unit |
| Bookings.DeletePreservesValid | app/api/bookings/route.ts:198-202 | DELETE keeps the table valid |
| Bookings.PutSelfNeverConflicts | app/api/bookings/route.ts:144-159 | in a valid table, re-saving a booking with its own fields succeeds with 200 and leaves the table unchanged |
| Bookings.InvertedWindowDiverges | app/api/bookings/route.ts:35-56 | with an inverted window, or with a booking whose end precedes its start, the three-clause filter selects a booking that the overlap rule does not, so both well-formedness hypotheses are needed |
| Bookings.GetWindowIsOverlap | app/api/bookings/route.ts:35-67 | for a table of well-formed bookings and a well-formed window, GET lists exactly the bookings matching the unit and property filters that overlap the window |
| Bookings.GetAgreesWithPostGuard | app/api/bookings/route.ts:35-105 | for well-formed bookings, a unit's GET over [start, end] is non-empty exactly when a POST of that interval on that unit gets 409 |
| FixedExpenses.ActiveTemplates | scripts/generate-fixed-expenses.ts:14-25 | a template is kept exactly when it has no end date or its end date is not before today |
| FixedExpenses.IsActive | scripts/generate-fixed-expenses.ts:14-20 | a template without an end date is active; one with an end date is active exactly when that date is not before today |
| FixedExpenses.NextDate | scripts/generate-fixed-expenses.ts:33-35 | the shifted date is in today's year; MONTHLY: in today's month on the start day clamped to its length; ANNUAL: in the start month on the start day clamped to that month's length this year |
| FixedExpenses.ShouldGenerate | scripts/generate-fixed-expenses.ts:33-42 | due exactly when the start day, clamped to the current month's length, is at most today's day, for ANNUAL only in the start month, and under the corrected policy only once the start date is reached |
| FixedExpenses.InWindow | scripts/generate-fixed-expenses.ts:51-54 | a date is in the window exactly when it is in today's month and, as written, before the month's last day |
| FixedExpenses.MonthlyDueIff | scripts/generate-fixed-expenses.ts:33-39 | a MONTHLY template is due exactly when its start day, clamped to the current month's length, is at most today's day |
| FixedExpenses.AnnualDueIff | scripts/generate-fixed-expenses.ts:33-42 | an ANNUAL template is due exactly in its start month, once its start day clamped to that month's length is at most today's day; never in another month |
| FixedExpenses.DueIgnoresStartYear | scripts/generate-fixed-expenses.ts:33-42 | the due test does not depend on the start's year, so it never compares the start date with today |
| FixedExpenses.FutureStartIsDueAsWritten | scripts/generate-fixed-expenses.ts:33-42 | a MONTHLY template that starts after today is due as soon as today's day reaches its start day; the start-date guard alone refuses it |
| FixedExpenses.CorrectedNeverBeforeStart | scripts/generate-fixed-expenses.ts:33-42 | under any policy with the start-date guard, every record a run creates comes from a template whose start date is not after today |
| FixedExpenses.WindowAsWrittenDays | scripts/generate-fixed-expenses.ts:51-54 | the de-duplication window as written holds exactly the dates of today's month before its last day |
| FixedExpenses.WindowCorrectedDays | scripts/generate-fixed-expenses.ts:51-54 | under any policy with the whole-month window, the window holds exactly the dates of today's month |
| FixedExpenses.AutoDescriptionSplits | scripts/generate-fixed-expenses.ts:50 | the generated description is `"[Auto] "` followed by the template's description |
| FixedExpenses.AutoExpense | scripts/generate-fixed-expenses.ts:60-69 | the created record has the template's property, unit and amount, the date today and the prefixed description; its category is 'Spese Mensili' exactly for MONTHLY and 'Spese Annuali' exactly for ANNUAL |
| FixedExpenses.Step | scripts/generate-fixed-expenses.ts:44-73 | one iteration appends at most one record and counts it; it appends exactly when the template is due, did not fail and has no record in the window; what it appends is that template's record; after a due, non-failing step the template has a record in the window whenever today is in the window |
| FixedExpenses.Process | scripts/generate-fixed-expenses.ts:30-78 | the loop only appends, and no more records than there are templates; the count grows by exactly the number appended; each appended record belongs to a due, non-failing template of the list (that each due template gets a record is the pair of lemmas below) |
| FixedExpenses.Generate | scripts/generate-fixed-expenses.ts:10-81 | a run only appends; `generatedCount` equals the number of records created and is at most the number of active templates; each created record belongs to an active, due, non-failing template; when today is in the window, every active, due, non-failing template has a record in it afterwards, whatever other templates fail; when today is outside it (as written, the month's last day), every such template without a record beforehand gets its own new record; a template that already had a record in the window gets no new one, whatever fails |
| FixedExpenses.ExpiredTemplateIgnored | scripts/generate-fixed-expenses.ts:14-25 | a template whose end date is before today can be removed from any position of the list without changing the run |
| FixedExpenses.FailureSkipsOnlyThatTemplate | scripts/generate-fixed-expenses.ts:75-77 | a template whose store calls throw is skipped: wherever it stands in the list, the run gives the same result as without it |
| FixedExpenses.SingleTemplateRun | scripts/generate-fixed-expenses.ts:30-78 | a run over one template creates exactly that template's record, counted once, when it is active, due, not failing and without a record in the window; otherwise it changes nothing and counts 0 |
| FixedExpenses.ProcessAppend | scripts/generate-fixed-expenses.ts:30-78 | the loop over two lists in a row gives the same state as the loop over their concatenation |
| FixedExpenses.ProcessLeavesRecords | scripts/generate-fixed-expenses.ts:44-77 | after the loop, every due template whose store calls did not throw has a record in the window, provided today is in the window; failures of other templates do not prevent it |
| FixedExpenses.ProcessSkipsGenerated | scripts/generate-fixed-expenses.ts:46-58 | a template that already has a record in the window before the loop never gets that record created again during it, whatever other templates do or fail |
| FixedExpenses.StepNeverRecreates | scripts/generate-fixed-expenses.ts:46-58 | one iteration never appends the record of a template that already has a record in the window, even when the iteration's own template differs |
| FixedExpenses.ProcessCreatesOutsideWindow | scripts/generate-fixed-expenses.ts:44-77 | when today is outside the window, every due, non-failing template that had no record in the window before the loop gets its own new record |
| FixedExpenses.ProcessIsNoOpWhenAllGenerated | scripts/generate-fixed-expenses.ts:44-58 | if every due template already has a record in the window, the loop creates and counts nothing |
| FixedExpenses.RerunCreatesNothing | scripts/generate-fixed-expenses.ts:44-73 | when today is in the window, a second run on the same day after a failure-free run returns the table unchanged with count 0 |
| FixedExpenses.RerunIdempotentAsWritten | scripts/generate-fixed-expenses.ts:44-73 | the script as written is idempotent on every day except the last of the month |
| FixedExpenses.LastDayRerunDuplicates | scripts/generate-fixed-expenses.ts:53 | on the last day of a month, a due template's record is created by the first run and created again by the second |
| FixedExpenses.RerunIdempotentCorrected | scripts/generate-fixed-expenses.ts:51-54 | under any policy with the window running to the first of next month, a second run creates nothing on every day |
| Scenarios.TouchingStayConflicts | app/api/bookings/route.ts:88-106 | with 1–7 August booked on unit U, a 7–10 August POST on U gets 409, the same stay on unit V gets 201, and a VIEWER gets 401 |
| Scenarios.PutChecksTargetUnit | app/api/bookings/route.ts:144-182 | moving a stay onto a unit where it collides gets 409; moving it to a free unit gets 200; updating a missing id gets 500 |
| Scenarios.DragAndDropKeepsDetails | app/api/bookings/route.ts:165-175 | a PUT that sends only a new unit and new dates, as the calendar's drag-and-drop does, moves the stay and keeps its guest, price, source and notes |
| Scenarios.MonthlyRentOncePerMonth | prisma/seed.ts:245-253 | the MONTHLY rent template creates one record on 1 August 2024; on 15 August it is still due but creates nothing |
| Scenarios.AnnualInsuranceInJanuary | prisma/seed.ts:255-263 | the ANNUAL insurance template of 1200 creates exactly one 'Spese Annuali' record dated 1 January 2025 |
| Scenarios.AnnualInsuranceNotInFebruary | scripts/generate-fixed-expenses.ts:40-42 | the same template creates nothing on 1 February 2025 |
| Scenarios.EndedTemplateSilent | scripts/generate-fixed-expenses.ts:14-25 | a template that ended on 31 July 2024 creates nothing on 1 August 2024 |
| Scenarios.FutureRentDueInJanuary | scripts/generate-fixed-expenses.ts:33-42 | a MONTHLY template starting on 5 March 2025 is due on 10 January 2025 as written, and not with the corrected test |
| Scenarios.LastDayOfJanuaryAsWritten | scripts/generate-fixed-expenses.ts:53 | the first run on 31 January 2024 creates the rent record and the second creates it again: two identical records, the second run counting one |
| Scenarios.LastDayOfJanuaryCorrected | scripts/generate-fixed-expenses.ts:51-54 | with the corrected window, the second run on 31 January 2024 creates nothing |

## Left out

- Persistence: the Prisma client and its query execution are replaced by in-memory sequences. Foreign-key failures are not modelled: a POST naming a unit that does not exist would throw at `create` and return 500.
- Exceptions from the store, other than PUT/DELETE on a missing id and per-template failures in the generator, are not modelled. These are the 500 paths of GET and POST.
- An absent `unitId`, `startDate` or `endDate` in a POST or PUT body is not modelled. Prisma would drop the unit filter and check every unit; a missing date becomes an invalid `Date`.
- A POST body missing a required field is not modelled: `create` would throw and the handler return 500. Every POST field is present in the model.
- Concurrency: two POSTs can both pass the overlap check before either writes. The code has no locking, and the model is sequential.
- Date parsing, time zones and time of day. Booking instants are integers. Generator dates are calendar days. A date parameter given as an empty string counts as absent in the source; the model has no string form for it.
- The active filter compares a template's end date with the run's current instant. At day granularity, a template ending today is modelled as active. In the source it is active only if its stored end instant is not earlier than the moment the run starts.
- GET's ordering among bookings with equal start dates is left to the database. The model orders them by insertion, which is one admissible order; its contract promises only sortedness and the permutation.
- `findFirst` in the guard returns some matching booking. The model returns the first in table order; only whether one exists matters.
- The `unit` and `guest` relations that responses include, console logging, error-message text and the script's exit code.
- `app/api/bookings/[id]/route.ts` repeats the PUT and DELETE handlers modelled here, and is not modelled separately.
- `app/api/auth.ts` and the NextAuth route: session lookup, bcrypt and JWT callbacks are third-party libraries. The session is a parameter.
- `netlify/functions/generate-expenses.js` is a process wrapper that runs the script, so it is not modelled.
- The UI components and pages are not modelled. This covers the booking calendar, the kanban, the property manager, the dashboard and the P&L dashboard, together with their percentage helpers, which use floating point.
- Amounts and prices are `real` values copied unchanged; no arithmetic is done on them.
- FixedExpenses.Process: "at most one record per template" is stated through `Step` appending at most one record and the bound of one record per list entry in total. It is not stated as an injection from appended records to template positions. That every due, non-failing template gets a record, and that a template with a record gets no new one, is stated by the lemmas `ProcessLeavesRecords`, `ProcessCreatesOutsideWindow` and `ProcessSkipsGenerated` and by `Generate`'s contract, not by `Process`'s own.
- FixedExpenses.Generate: "at most one record per template per run" is stated as `Step` appending at most one record and the count bound `generated <= |active templates|`. It is not stated as an injection from created records to template positions.

## Findings

| source | as written | input that shows it | evidently intended | confidence | as-written member | corrected member |
|---|---|---|---|---|---|---|
| scripts/generate-fixed-expenses.ts:53 | the de-duplication window ends (exclusive) at `new Date(y, m + 1, 0)`, which is midnight at the start of the current month's last day | a MONTHLY template started 2024-01-01, run twice on 2024-01-31: the second run does not see the record the first created, and creates a duplicate | the window covers the whole current month, up to the first of next month | high (not executed) | FixedExpenses.LastDayRerunDuplicates | FixedExpenses.RerunIdempotentCorrected |
| scripts/generate-fixed-expenses.ts:33-42 | the due test never compares the template's start date with today; a negative month or year difference moves the start date back into the current month | a MONTHLY template starting 2025-03-05, run on 2025-01-10: it is due and generates an expense two months before it starts | a template is not due before its start date | medium (not executed) | FixedExpenses.FutureStartIsDueAsWritten | FixedExpenses.CorrectedNeverBeforeStart |

=== FILE: bookings.dfy ===
/**
  The booking endpoints of `app/api/bookings/route.ts`: the role gates, the
  GET range query, and the overlap guard that POST and PUT run before they
  write.

  The booking table is a sequence of `Booking` records and every handler is a
  pure function from (session, store, request) to (status, store'). Instants
  are integers ordered like the source's `Date` values; parsing them from
  request strings is not modelled.
*/
module Bookings {
  import opened Optional

  /** Milliseconds since the epoch: only the order of instants matters here. */
  type Instant = int

  type BookingId = nat

  datatype Role = Admin | Staff | Viewer

  /** `getServerSession`: either no session, or a signed-in user's role. */
  type Session = Option<Role>

  datatype Booking = Booking(
    id: BookingId,
    unitId: string,
    guestId: string,
    startDate: Instant,
    endDate: Instant,
    price: real,
    source: string,
    notes: Option<string>)

  /** The JSON body of POST. */
  datatype BookingData = BookingData(
    unitId: string,
    guestId: string,
    startDate: Instant,
    endDate: Instant,
    price: real,
    source: string,
    notes: Option<string>)

  /** A field of the PUT body: left out of the JSON, in which case Prisma's
      `update` keeps the stored value, or given. `notes` may be given as
      `null`, which is `Sent(None)`. */
  datatype Field<T> = Omitted | Sent(value: T)

  /** The JSON body of PUT. The guard reads the unit and the dates; the
      calendar's drag-and-drop sends only those three, so the others may be
      missing. */
  datatype BookingUpdate = BookingUpdate(
    unitId: string,
    startDate: Instant,
    endDate: Instant,
    guestId: Field<string>,
    price: Field<real>,
    source: Field<string>,
    notes: Field<Option<string>>)

  /** The query string of GET; an absent parameter is `None`. */
  datatype BookingQuery = BookingQuery(
    propertyId: Option<string>,
    unitId: Option<string>,
    startDate: Option<Instant>,
    endDate: Option<Instant>)

  /** Outcome of a handler that may write: HTTP status and the table after it. */
  datatype Reply = Reply(status: nat, store: seq<Booking>)

  /** Outcome of GET: HTTP status and the bookings in the response body. */
  datatype Listing = Listing(status: nat, bookings: seq<Booking>)

  const StatusOk: nat := 200
  const StatusCreated: nat := 201
  const StatusUnauthorized: nat := 401
  const StatusConflict: nat := 409
  const StatusServerError: nat := 500

  // ---------------------------------------------------------------------------
  // Authorization

  datatype Action = Read | Create | Update | Remove

  /** The role gate each handler runs first: any session may read, VIEWER may
      not create or update, and only ADMIN may delete. */
  function Allowed(session: Session, action: Action): (ok: bool)
    ensures session.None? ==> !ok
    ensures session == Some(Admin) ==> ok
    ensures session == Some(Staff) ==> (ok <==> action != Remove)
    ensures session == Some(Viewer) ==> (ok <==> action == Read)
  {
    match session
    case None => false
    case Some(role) =>
      match action
      case Read => true
      case Create => role != Viewer
      case Update => role != Viewer
      case Remove => role == Admin
  }

  /** The roles form a hierarchy: whatever STAFF may do ADMIN may do, and
      whatever VIEWER may do STAFF may do; without a session nothing is
      allowed. */
  lemma PrivilegesNested(action: Action)
    ensures Allowed(Some(Viewer), action) ==> Allowed(Some(Staff), action)
    ensures Allowed(Some(Staff), action) ==> Allowed(Some(Admin), action)
    ensures !Allowed(None, action)
    ensures Allowed(Some(Admin), action)
    ensures Allowed(Some(Viewer), action) <==> action == Read
  {
  }

  // ---------------------------------------------------------------------------
  // The overlap guard

  /** The conflict rule: closed intervals that share an instant, the
      boundary included, so a check-in on another booking's check-out instant
      conflicts. */
  function Overlaps(aStart: Instant, aEnd: Instant, bStart: Instant, bEnd: Instant): (shared: bool)
    ensures aStart <= aEnd && bStart <= bEnd ==>
      (shared <==> exists t :: Within(t, aStart, aEnd) && Within(t, bStart, bEnd))
  {
    var t := if aStart <= bStart then bStart else aStart;
    assert aStart <= aEnd && bStart <= bEnd && aStart <= bEnd && aEnd >= bStart ==>
           Within(t, aStart, aEnd) && Within(t, bStart, bEnd);
    aStart <= bEnd && aEnd >= bStart
  }

  /** Instant `t` lies in the closed interval [start, end]. */
  predicate Within(t: Instant, start: Instant, end: Instant) {
    start <= t <= end
  }

  lemma OverlapsSymmetric(aStart: Instant, aEnd: Instant, bStart: Instant, bEnd: Instant)
    ensures Overlaps(aStart, aEnd, bStart, bEnd) <==> Overlaps(bStart, bEnd, aStart, aEnd)
  {
  }

  /** Touching intervals conflict: a booking that starts at the instant an
      existing one ends is rejected. */
  lemma TouchingIntervalsOverlap(s1: Instant, e1: Instant, e2: Instant)
    requires s1 <= e1 <= e2
    ensures Overlaps(s1, e1, e1, e2)
  {
  }

  /** A strict gap between two intervals means no conflict, in either order. */
  lemma GapMeansNoOverlap(s1: Instant, e1: Instant, s2: Instant, e2: Instant)
    requires e1 < s2
    ensures !Overlaps(s1, e1, s2, e2) && !Overlaps(s2, e2, s1, e1)
  {
  }

  /** The `where` clause of the guard's `findFirst`: same unit, not the
      excluded id, and overlapping the requested interval. */
  predicate Blocks(b: Booking, unitId: string, start: Instant, end: Instant, exclude: Option<BookingId>) {
    && b.unitId == unitId
    && (exclude.None? || b.id != exclude.value)
    && Overlaps(b.startDate, b.endDate, start, end)
  }

  /** `prisma.booking.findFirst` with the guard's filter: the first booking
      in table order that blocks the request, if any. */
  function FindOverlap(store: seq<Booking>, unitId: string, start: Instant, end: Instant,
                       exclude: Option<BookingId>): (r: Option<Booking>)
    ensures r.None? <==> forall b | b in store :: !Blocks(b, unitId, start, end, exclude)
    ensures r.Some? ==> r.value in store && Blocks(r.value, unitId, start, end, exclude)
    ensures r.Some? ==> r.value.unitId == unitId
  {
    if |store| == 0 then None
    else if Blocks(store[0], unitId, start, end, exclude) then Some(store[0])
    else FindOverlap(store[1..], unitId, start, end, exclude)
  }

  // ---------------------------------------------------------------------------
  // Table invariants

  predicate UniqueIds(store: seq<Booking>) {
    forall i, j | 0 <= i < j < |store| :: store[i].id != store[j].id
  }

  /** No two distinct bookings on one unit overlap. */
  predicate NoOverlaps(store: seq<Booking>) {
    forall a, b | a in store && b in store && a.id != b.id && a.unitId == b.unitId ::
      !Overlaps(a.startDate, a.endDate, b.startDate, b.endDate)
  }

  predicate Valid(store: seq<Booking>) {
    UniqueIds(store) && NoOverlaps(store)
  }

  predicate HasId(store: seq<Booking>, id: BookingId) {
    exists b | b in store :: b.id == id
  }

  /** The id the database assigns to a new row: one more than any id in use. */
  function FreshId(store: seq<Booking>): (n: BookingId)
    ensures forall b | b in store :: b.id < n
  {
    if |store| == 0 then 0
    else
      var rest := FreshId(store[1..]);
      assert forall b | b in store[1..] :: b.id < rest;
      if store[0].id < rest then rest else store[0].id + 1
  }

  function FromData(id: BookingId, data: BookingData): Booking {
    Booking(id, data.unitId, data.guestId, data.startDate, data.endDate,
            data.price, data.source, data.notes)
  }

  /** The record `data` would become, carrying every field of the request. */
  predicate Carries(b: Booking, data: BookingData) {
    && b.unitId == data.unitId && b.guestId == data.guestId
    && b.startDate == data.startDate && b.endDate == data.endDate
    && b.price == data.price && b.source == data.source && b.notes == data.notes
  }

  // ---------------------------------------------------------------------------
  // Handlers

  /** POST /api/bookings. */
  function Post(session: Session, store: seq<Booking>, data: BookingData): (r: Reply)
    ensures !Allowed(session, Create) ==> r == Reply(StatusUnauthorized, store)
    ensures r.status == StatusUnauthorized <==> !Allowed(session, Create)
    ensures Allowed(session, Create) ==>
      (r.status == StatusConflict <==>
         exists b | b in store :: Blocks(b, data.unitId, data.startDate, data.endDate, None))
    ensures Allowed(session, Create)
            && (forall b | b in store :: !Blocks(b, data.unitId, data.startDate, data.endDate, None))
            ==> r.status == StatusCreated
    ensures r.status == StatusConflict ==> r.store == store
    ensures r.status == StatusCreated ==>
      && |r.store| == |store| + 1
      && r.store[..|store|] == store
      && !HasId(store, r.store[|store|].id)
      && Carries(r.store[|store|], data)
    ensures r.status in {StatusCreated, StatusUnauthorized, StatusConflict}
  {
    if !Allowed(session, Create) then Reply(StatusUnauthorized, store)
    else if FindOverlap(store, data.unitId, data.startDate, data.endDate, None).Some? then
      Reply(StatusConflict, store)
    else
      Reply(StatusCreated, store + [FromData(FreshId(store), data)])
  }

  /** `update` of one stored record: the unit and the dates are replaced,
      every other field only when the body gives it. */
  function Apply(b: Booking, u: BookingUpdate): Booking {
    Booking(b.id, u.unitId,
            if u.guestId.Sent? then u.guestId.value else b.guestId,
            u.startDate, u.endDate,
            if u.price.Sent? then u.price.value else b.price,
            if u.source.Sent? then u.source.value else b.source,
            if u.notes.Sent? then u.notes.value else b.notes)
  }

  /** `after` is `before` updated by `u`: same id, the unit and dates of the
      body, each given field's value, and each missing field as it was. */
  predicate Updated(after: Booking, before: Booking, u: BookingUpdate) {
    && after.id == before.id
    && after.unitId == u.unitId && after.startDate == u.startDate && after.endDate == u.endDate
    && after.guestId == (match u.guestId case Omitted => before.guestId case Sent(g) => g)
    && after.price == (match u.price case Omitted => before.price case Sent(p) => p)
    && after.source == (match u.source case Omitted => before.source case Sent(x) => x)
    && after.notes == (match u.notes case Omitted => before.notes case Sent(n) => n)
  }

  /** The table with the record carrying `id` updated by `u`. */
  function UpdateId(store: seq<Booking>, id: BookingId, u: BookingUpdate): (r: seq<Booking>)
    ensures |r| == |store|
    ensures forall i | 0 <= i < |store| ::
      if store[i].id == id then Updated(r[i], store[i], u) else r[i] == store[i]
  {
    seq(|store|, i requires 0 <= i < |store| => if store[i].id == id then Apply(store[i], u) else store[i])
  }

  /** PUT /api/bookings/:id: the guard excludes the booking's own id and
      checks the unit named in the request, then the update fails with a
      server error when no booking has that id. */
  function Put(session: Session, store: seq<Booking>, id: BookingId, u: BookingUpdate): (r: Reply)
    ensures !Allowed(session, Update) ==> r == Reply(StatusUnauthorized, store)
    ensures r.status == StatusUnauthorized <==> !Allowed(session, Update)
    ensures Allowed(session, Update) ==>
      (r.status == StatusConflict <==>
         exists b | b in store :: Blocks(b, u.unitId, u.startDate, u.endDate, Some(id)))
    ensures r.status == StatusServerError <==>
      && Allowed(session, Update)
      && (forall b | b in store :: !Blocks(b, u.unitId, u.startDate, u.endDate, Some(id)))
      && !HasId(store, id)
    ensures Allowed(session, Update)
            && (forall b | b in store :: !Blocks(b, u.unitId, u.startDate, u.endDate, Some(id)))
            && HasId(store, id)
            ==> r.status == StatusOk
    ensures r.status != StatusOk ==> r.store == store
    ensures r.status == StatusOk ==>
      && HasId(store, id)
      && |r.store| == |store|
      && forall i | 0 <= i < |store| ::
           if store[i].id == id then Updated(r.store[i], store[i], u)
           else r.store[i] == store[i]
    ensures r.status in {StatusOk, StatusUnauthorized, StatusConflict, StatusServerError}
  {
    if !Allowed(session, Update) then Reply(StatusUnauthorized, store)
    else if FindOverlap(store, u.unitId, u.startDate, u.endDate, Some(id)).Some? then
      Reply(StatusConflict, store)
    else if !HasId(store, id) then Reply(StatusServerError, store)
    else Reply(StatusOk, UpdateId(store, id, u))
  }

  /** The table without the record carrying `id`. */
  function RemoveId(store: seq<Booking>, id: BookingId): (r: seq<Booking>)
    ensures forall b :: b in r <==> b in store && b.id != id
    ensures multiset(r) <= multiset(store)
    ensures |r| <= |store|
  {
    if |store| == 0 then []
    else
      assert store == [store[0]] + store[1..];
      if store[0].id == id then RemoveId(store[1..], id)
      else [store[0]] + RemoveId(store[1..], id)
  }

  /** Removing records keeps the ids that remain distinct. */
  lemma {:induction false} RemoveIdKeepsUniqueIds(store: seq<Booking>, id: BookingId)
    requires UniqueIds(store)
    ensures UniqueIds(RemoveId(store, id))
  {
    if |store| > 0 {
      var rest := RemoveId(store[1..], id);
      RemoveIdKeepsUniqueIds(store[1..], id);
      if store[0].id != id {
        forall b | b in rest
          ensures b.id != store[0].id
        {
          var k :| 0 <= k < |store[1..]| && store[1..][k] == b;
          assert store[k + 1] == b;
        }
      }
    }
  }

  /** DELETE /api/bookings/:id: ADMIN only; deleting a missing id fails with
      a server error. */
  function Delete(session: Session, store: seq<Booking>, id: BookingId): (r: Reply)
    ensures !Allowed(session, Remove) ==> r == Reply(StatusUnauthorized, store)
    ensures Allowed(session, Remove) && !HasId(store, id) ==> r == Reply(StatusServerError, store)
    ensures Allowed(session, Remove) && HasId(store, id) ==>
      && r.status == StatusOk
      && (forall b :: b in r.store <==> b in store && b.id != id)
      && multiset(r.store) <= multiset(store)
    ensures r.status in {StatusOk, StatusUnauthorized, StatusServerError}
  {
    if !Allowed(session, Remove) then Reply(StatusUnauthorized, store)
    else if !HasId(store, id) then Reply(StatusServerError, store)
    else Reply(StatusOk, RemoveId(store, id))
  }

  // ---------------------------------------------------------------------------
  // GET

  /** JavaScript truthiness of a query parameter: absent or empty is false. */
  predicate Given(p: Option<string>) {
    p.Some? && p.value != ""
  }

  /** The three-clause OR filter of GET: start inside the window, end inside
      the window, or the booking spanning the whole window. */
  function InRange(b: Booking, start: Instant, end: Instant): (selected: bool)
    ensures b.startDate <= b.endDate && start <= end ==>
      (selected <==> Overlaps(b.startDate, b.endDate, start, end))
  {
    || (start <= b.startDate && b.startDate <= end)
    || (start <= b.endDate && b.endDate <= end)
    || (b.startDate <= start && b.endDate >= end)
  }

  /** The `where` object GET builds: each filter only when its parameters are
      given, the date window only when both bounds are. `unitProperty` maps
      each unit id to its property id (the `unit` relation). */
  predicate MatchesQuery(b: Booking, unitProperty: map<string, string>, q: BookingQuery) {
    && (Given(q.propertyId) ==> b.unitId in unitProperty && unitProperty[b.unitId] == q.propertyId.value)
    && (Given(q.unitId) ==> b.unitId == q.unitId.value)
    && (q.startDate.Some? && q.endDate.Some? ==> InRange(b, q.startDate.value, q.endDate.value))
  }

  function Select(store: seq<Booking>, unitProperty: map<string, string>, q: BookingQuery): (r: seq<Booking>)
    ensures forall b :: b in r <==> b in store && MatchesQuery(b, unitProperty, q)
    ensures multiset(r) <= multiset(store)
  {
    if |store| == 0 then []
    else
      assert store == [store[0]] + store[1..];
      if MatchesQuery(store[0], unitProperty, q) then [store[0]] + Select(store[1..], unitProperty, q)
      else Select(store[1..], unitProperty, q)
  }

  predicate SortedByStart(s: seq<Booking>) {
    forall i, j | 0 <= i < j < |s| :: s[i].startDate <= s[j].startDate
  }

  function InsertByStart(b: Booking, s: seq<Booking>): (r: seq<Booking>)
    requires SortedByStart(s)
    ensures SortedByStart(r)
    ensures multiset(r) == multiset(s) + multiset{b}
    ensures forall x | x in r :: x == b || x in s
  {
    if |s| == 0 then [b]
    else if b.startDate <= s[0].startDate then
      SortedCons(b, s);
      [b] + s
    else
      var rest := InsertByStart(b, s[1..]);
      assert s == [s[0]] + s[1..];
      HeadBelowRest(s);
      SortedCons(s[0], rest);
      [s[0]] + rest
  }

  /** Putting a booking that starts no later than every element in front of
      a sorted list keeps it sorted. */
  lemma SortedCons(x: Booking, t: seq<Booking>)
    requires SortedByStart(t)
    requires forall y | y in t :: x.startDate <= y.startDate
    ensures SortedByStart([x] + t)
  {
    forall i, j | 0 <= i < j < |[x] + t|
      ensures ([x] + t)[i].startDate <= ([x] + t)[j].startDate
    {
      if i == 0 {
        assert ([x] + t)[j] == t[j - 1];
      } else {
        assert ([x] + t)[i] == t[i - 1] && ([x] + t)[j] == t[j - 1];
      }
    }
  }

  lemma HeadBelowRest(s: seq<Booking>)
    requires SortedByStart(s) && |s| > 0
    ensures forall x | x in s[1..] :: s[0].startDate <= x.startDate
  {
    forall x | x in s[1..]
      ensures s[0].startDate <= x.startDate
    {
      var k :| 0 <= k < |s[1..]| && s[1..][k] == x;
      assert s[k + 1] == x;
    }
  }

  /** `orderBy: { startDate: 'asc' }`. */
  function SortByStart(s: seq<Booking>): (r: seq<Booking>)
    ensures SortedByStart(r)
    ensures multiset(r) == multiset(s)
  {
    if |s| == 0 then []
    else
      assert s == [s[0]] + s[1..];
      InsertByStart(s[0], SortByStart(s[1..]))
  }

  /** GET /api/bookings. */
  function Get(session: Session, store: seq<Booking>, unitProperty: map<string, string>,
               q: BookingQuery): (r: Listing)
    ensures !Allowed(session, Read) ==> r == Listing(StatusUnauthorized, [])
    ensures Allowed(session, Read) ==>
      && r.status == StatusOk
      && SortedByStart(r.bookings)
      && multiset(r.bookings) == multiset(Select(store, unitProperty, q))
      && forall b :: b in r.bookings <==> b in store && MatchesQuery(b, unitProperty, q)
  {
    if !Allowed(session, Read) then Listing(StatusUnauthorized, [])
    else
      var r := SortByStart(Select(store, unitProperty, q));
      assert forall b :: b in r <==> b in multiset(r);
      Listing(StatusOk, r)
  }

  // ---------------------------------------------------------------------------
  // Properties

  /** A successful POST keeps ids distinct and leaves no two bookings on one
      unit overlapping; a rejected one leaves the table as it was. */
  lemma PostPreservesValid(session: Session, store: seq<Booking>, data: BookingData)
    requires Valid(store)
    ensures Valid(Post(session, store, data).store)
  {
    var r := Post(session, store, data);
    if r.status == StatusCreated {
      var nb := r.store[|store|];
      assert r.store == store + [nb];
      forall i, j | 0 <= i < j < |r.store|
        ensures r.store[i].id != r.store[j].id
      {
        if j == |store| {
          assert r.store[i] in store;
        }
      }
      forall a, b | a in r.store && b in r.store && a.id != b.id && a.unitId == b.unitId
        ensures !Overlaps(a.startDate, a.endDate, b.startDate, b.endDate)
      {
        if a == nb {
          assert b in store && !Blocks(b, data.unitId, data.startDate, data.endDate, None);
        } else if b == nb {
          assert a in store && !Blocks(a, data.unitId, data.startDate, data.endDate, None);
        }
      }
    }
  }

  /** A successful PUT keeps ids distinct and leaves no two bookings on one
      unit overlapping, whichever unit the booking moves to. */
  lemma PutPreservesValid(session: Session, store: seq<Booking>, id: BookingId, u: BookingUpdate)
    requires Valid(store)
    ensures Valid(Put(session, store, id, u).store)
  {
    var r := Put(session, store, id, u);
    if r.status == StatusOk {
      forall i, j | 0 <= i < j < |r.store|
        ensures r.store[i].id != r.store[j].id
      {
        assert r.store[i].id == store[i].id && r.store[j].id == store[j].id;
      }
      forall a | a in r.store
        ensures || (a.id == id && a.unitId == u.unitId && a.startDate == u.startDate && a.endDate == u.endDate)
                || (a in store && a.id != id)
      {
        var k :| 0 <= k < |r.store| && r.store[k] == a;
      }
      forall a, b | a in r.store && b in r.store && a.id != b.id && a.unitId == b.unitId
        ensures !Overlaps(a.startDate, a.endDate, b.startDate, b.endDate)
      {
        if a.id == id {
          assert b in store && !Blocks(b, u.unitId, u.startDate, u.endDate, Some(id));
        } else if b.id == id {
          assert a in store && !Blocks(a, u.unitId, u.startDate, u.endDate, Some(id));
        }
      }
    }
  }

  /** DELETE only removes, so the table stays valid. */
  lemma DeletePreservesValid(session: Session, store: seq<Booking>, id: BookingId)
    requires Valid(store)
    ensures Valid(Delete(session, store, id).store)
  {
    if Allowed(session, Remove) && HasId(store, id) {
      RemoveIdKeepsUniqueIds(store, id);
    }
  }

  /** The PUT body that sends every field of `b`. */
  function ResaveBody(b: Booking): BookingUpdate {
    BookingUpdate(b.unitId, b.startDate, b.endDate, Sent(b.guestId), Sent(b.price), Sent(b.source), Sent(b.notes))
  }

  /** Re-saving a booking with its own unit and dates never conflicts with
      itself: in a valid table, the PUT succeeds and changes nothing. */
  lemma PutSelfNeverConflicts(session: Session, store: seq<Booking>, k: nat)
    requires Valid(store) && k < |store|
    requires Allowed(session, Update)
    ensures Put(session, store, store[k].id, ResaveBody(store[k])) == Reply(StatusOk, store)
  {
    var b := store[k];
    forall x | x in store
      ensures !Blocks(x, b.unitId, b.startDate, b.endDate, Some(b.id))
    {
      if x.id != b.id && x.unitId == b.unitId {
        assert !Overlaps(x.startDate, x.endDate, b.startDate, b.endDate);
      }
    }
    assert HasId(store, b.id);
    var r := Put(session, store, b.id, ResaveBody(b));
    assert r.status == StatusOk;
    forall i | 0 <= i < |store|
      ensures r.store[i] == store[i]
    {
      if store[i].id == b.id {
        assert i == k;
      }
    }
  }

  predicate WellFormed(b: Booking) {
    b.startDate <= b.endDate
  }

  /** Both well-formedness conditions matter: with an inverted window, or
      with an inverted booking, the three-clause filter selects a booking the
      overlap rule does not. */
  lemma InvertedWindowDiverges()
    ensures var b := Booking(0, "u", "g", 4, 4, 0.0, "direct", None);
            InRange(b, 5, 3) && !Overlaps(b.startDate, b.endDate, 5, 3)
    ensures var inverted := Booking(0, "u", "g", 3, 0, 0.0, "direct", None);
            InRange(inverted, 1, 5) && !Overlaps(inverted.startDate, inverted.endDate, 1, 5)
  {
  }

  /** For a table of well-formed bookings and a well-formed window, GET
      returns exactly the bookings that match the unit and property filters
      and overlap the window. */
  lemma GetWindowIsOverlap(session: Session, store: seq<Booking>, unitProperty: map<string, string>,
                           q: BookingQuery)
    requires Allowed(session, Read)
    requires forall b | b in store :: WellFormed(b)
    requires q.startDate.Some? && q.endDate.Some? && q.startDate.value <= q.endDate.value
    ensures forall b :: b in Get(session, store, unitProperty, q).bookings <==>
      && b in store
      && (Given(q.propertyId) ==> b.unitId in unitProperty && unitProperty[b.unitId] == q.propertyId.value)
      && (Given(q.unitId) ==> b.unitId == q.unitId.value)
      && Overlaps(b.startDate, b.endDate, q.startDate.value, q.endDate.value)
  {
    forall b | b in store
      ensures InRange(b, q.startDate.value, q.endDate.value)
              <==> Overlaps(b.startDate, b.endDate, q.startDate.value, q.endDate.value)
    {
      assert WellFormed(b);
    }
  }

  /** GET and the POST guard agree: a unit's calendar query over [start, end]
      comes back non-empty exactly when a POST of that interval on that unit
      is rejected as a conflict. */
  lemma GetAgreesWithPostGuard(session: Session, store: seq<Booking>, unitProperty: map<string, string>,
                               data: BookingData)
    requires Allowed(session, Create)
    requires forall b | b in store :: WellFormed(b)
    requires data.unitId != "" && data.startDate <= data.endDate
    ensures var q := BookingQuery(None, Some(data.unitId), Some(data.startDate), Some(data.endDate));
            Post(session, store, data).status == StatusConflict
            <==> |Get(session, store, unitProperty, q).bookings| > 0
  {
    var q := BookingQuery(None, Some(data.unitId), Some(data.startDate), Some(data.endDate));
    var listed := Get(session, store, unitProperty, q).bookings;
    GetWindowIsOverlap(session, store, unitProperty, q);
    if Post(session, store, data).status == StatusConflict {
      var b :| b in store && Blocks(b, data.unitId, data.startDate, data.endDate, None);
      assert b in listed;
    } else if |listed| > 0 {
      assert listed[0] in listed;
      assert Blocks(listed[0], data.unitId, data.startDate, data.endDate, None);
    }
  }
}

=== FILE: calendar.dfy ===
/**
  Calendar dates at day granularity, and the month arithmetic the expense
  generator relies on.

  Months are numbered 1..12 where the source's `getMonth()` counts 0..11.
  The source uses it in differences, in equalities, and as the month argument
  of `new Date(y, m, d)`; `FirstOfMonth` and `LastOfMonth` are those
  constructor calls in 1-based terms. `AddMonths` and `AddYears` follow the date-fns semantics the
  source imports: move by whole months and clamp the day to the length of the
  target month; `addYears(d, n)` is `addMonths(d, 12 * n)`.
*/
module Calendar {

  datatype Date = Date(year: int, month: int, day: int)

  /** Gregorian leap-year rule. */
  predicate IsLeapYear(y: int) {
    y % 4 == 0 && (y % 100 != 0 || y % 400 == 0)
  }

  function DaysInMonth(y: int, m: int): (n: int)
    requires 1 <= m <= 12
    ensures 28 <= n <= 31
    ensures n == 31 <==> m in {1, 3, 5, 7, 8, 10, 12}
    ensures m == 2 ==> (n == 29 <==> IsLeapYear(y))
  {
    if m == 2 then (if IsLeapYear(y) then 29 else 28)
    else if m == 4 || m == 6 || m == 9 || m == 11 then 30
    else 31
  }

  predicate ValidDate(d: Date) {
    1 <= d.month <= 12 && 1 <= d.day <= DaysInMonth(d.year, d.month)
  }

  /** A date that exists on the calendar; every JavaScript `Date` denotes one. */
  type CalendarDate = d: Date | ValidDate(d) witness Date(1970, 1, 1)

  function Min(a: int, b: int): int {
    if a <= b then a else b
  }

  /** Chronological order on dates (lexicographic on year, month, day). */
  predicate Before(a: Date, b: Date) {
    a.year < b.year
    || (a.year == b.year && a.month < b.month)
    || (a.year == b.year && a.month == b.month && a.day < b.day)
  }

  predicate AtOrBefore(a: Date, b: Date) {
    a == b || Before(a, b)
  }

  /** Months elapsed since January of year 0: a bijection between (year,
      month) pairs and integers. */
  function MonthIndex(y: int, m: int): int {
    y * 12 + (m - 1)
  }

  lemma MonthIndexInjective(y1: int, m1: int, y2: int, m2: int)
    requires 1 <= m1 <= 12 && 1 <= m2 <= 12
    requires MonthIndex(y1, m1) == MonthIndex(y2, m2)
    ensures y1 == y2 && m1 == m2
  {
  }

  /** The (year, month) with the given month index. */
  function MonthOfIndex(k: int): (ym: (int, int))
    ensures 1 <= ym.1 <= 12
    ensures MonthIndex(ym.0, ym.1) == k
  {
    (k / 12, k % 12 + 1)
  }

  /** date-fns `addMonths`: shift by `n` whole months (n may be negative) and
      clamp the day to the last day of the target month. */
  function AddMonths(d: CalendarDate, n: int): (r: CalendarDate)
    ensures MonthIndex(r.year, r.month) == MonthIndex(d.year, d.month) + n
    ensures r.day == Min(d.day, DaysInMonth(r.year, r.month))
    ensures r.day <= d.day
  {
    var ym := MonthOfIndex(MonthIndex(d.year, d.month) + n);
    Date(ym.0, ym.1, Min(d.day, DaysInMonth(ym.0, ym.1)))
  }

  /** date-fns `addYears`, which delegates to `addMonths(d, 12 * n)`. */
  function AddYears(d: CalendarDate, n: int): (r: CalendarDate)
    ensures r.year == d.year + n && r.month == d.month
    ensures r.day == Min(d.day, DaysInMonth(r.year, r.month))
  {
    var r := AddMonths(d, 12 * n);
    MonthIndexInjective(r.year, r.month, d.year + n, d.month);
    r
  }

  /** `getMonthsDifference(startDate, currentDate)`: calendar months between
      the two dates, ignoring the days. */
  function MonthsDifference(start: Date, current: Date): (n: int)
    ensures MonthIndex(start.year, start.month) + n == MonthIndex(current.year, current.month)
  {
    (current.year - start.year) * 12 + current.month - start.month
  }

  /** `getYearsDifference(startDate, currentDate)`: calendar years between
      the two dates, ignoring month and day. */
  function YearsDifference(start: Date, current: Date): (n: int)
    ensures start.year + n == current.year
  {
    current.year - start.year
  }

  /** Shifting a start date by the month difference to `today` always lands
      in today's year and month, with the start's day clamped to that month. */
  lemma AddMonthsDifferenceLandsInMonth(start: CalendarDate, today: CalendarDate)
    ensures AddMonths(start, MonthsDifference(start, today))
            == Date(today.year, today.month, Min(start.day, DaysInMonth(today.year, today.month)))
  {
    var r := AddMonths(start, MonthsDifference(start, today));
    MonthIndexInjective(r.year, r.month, today.year, today.month);
  }

  /** Shifting a start date by the year difference to `today` lands in
      today's year, in the start's month, with the day clamped to it. */
  lemma AddYearsDifferenceLandsInYear(start: CalendarDate, today: CalendarDate)
    ensures AddYears(start, YearsDifference(start, today))
            == Date(today.year, start.month, Min(start.day, DaysInMonth(today.year, start.month)))
  {
  }

  /** date-fns `isSameMonth`: same year and same month. */
  predicate IsSameMonth(a: Date, b: Date) {
    a.year == b.year && a.month == b.month
  }

  /** date-fns `isSameYear`. */
  predicate IsSameYear(a: Date, b: Date) {
    a.year == b.year
  }

  function FirstOfMonth(d: Date): Date {
    Date(d.year, d.month, 1)
  }

  /** `new Date(y, m + 1, 0)`: day zero of the next month is the last day of
      this one, also in December. */
  function LastOfMonth(d: CalendarDate): (r: CalendarDate)
    ensures r.year == d.year && r.month == d.month
    ensures forall x: CalendarDate | x.year == d.year && x.month == d.month :: x.day <= r.day
  {
    Date(d.year, d.month, DaysInMonth(d.year, d.month))
  }

  function FirstOfNextMonth(d: CalendarDate): (r: CalendarDate)
    ensures MonthIndex(r.year, r.month) == MonthIndex(d.year, d.month) + 1
    ensures r.day == 1
  {
    if d.month == 12 then Date(d.year + 1, 1, 1) else Date(d.year, d.month + 1, 1)
  }
}

=== FILE: fixed_expenses.dfy ===
/**
  The recurring-expense generator of `scripts/generate-fixed-expenses.ts`.

  One run takes the fixed-expense templates, keeps the active ones, and folds
  over them with the variable-expense table as the accumulator: a template
  that is due this month and has no generated record in the de-duplication
  window gets one new "[Auto] ..." record dated today, and the run counts the
  records it creates.

  `Policy` selects the two places where the generator as written and the
  evidently intended generator differ, one flag each; the model of the
  script is the `AsWritten` instance.
*/
module FixedExpenses {
  import opened Optional
  import opened Calendar

  datatype Recurrence = Monthly | Annual

  datatype FixedExpense = FixedExpense(
    id: string,
    propertyId: string,
    unitId: Option<string>,
    description: string,
    amount: real,
    recurrence: Recurrence,
    startDate: CalendarDate,
    endDate: Option<CalendarDate>)

  datatype VariableExpense = VariableExpense(
    propertyId: string,
    unitId: Option<string>,
    date: CalendarDate,
    description: string,
    amount: real,
    category: string)

  /** Which corrections of the script to apply, each on its own:
      `wholeMonthWindow` makes the de-duplication window run to the first of
      next month, `startGuard` makes a template not due before its start
      date. */
  datatype Policy = Policy(wholeMonthWindow: bool, startGuard: bool)

  /** The script itself. */
  const AsWritten: Policy := Policy(false, false)

  /** The evidently intended generator, with both corrections. */
  const Corrected: Policy := Policy(true, true)

  const AutoPrefix: string := "[Auto] "
  const MonthlyCategory: string := "Spese Mensili"
  const AnnualCategory: string := "Spese Annuali"

  function AutoDescription(e: FixedExpense): string {
    AutoPrefix + e.description
  }

  /** The generated description is the prefix followed by the template's own
      description, so the two can be told apart and the template's recovered. */
  lemma AutoDescriptionSplits(e: FixedExpense)
    ensures |AutoDescription(e)| == |AutoPrefix| + |e.description|
    ensures AutoDescription(e)[..|AutoPrefix|] == AutoPrefix
    ensures AutoDescription(e)[|AutoPrefix|..] == e.description
  {
  }

  // ---------------------------------------------------------------------------
  // Eligibility and the due test

  /** The `findMany` filter: no end date, or an end date not before today. */
  function IsActive(e: FixedExpense, today: CalendarDate): (active: bool)
    ensures e.endDate.None? ==> active
    ensures e.endDate.Some? ==> (active <==> !Before(e.endDate.value, today))
  {
    e.endDate.None? || AtOrBefore(today, e.endDate.value)
  }

  function ActiveTemplates(fixed: seq<FixedExpense>, today: CalendarDate): (r: seq<FixedExpense>)
    ensures forall e :: e in r <==> e in fixed && IsActive(e, today)
    ensures |r| <= |fixed|
  {
    if |fixed| == 0 then []
    else if IsActive(fixed[0], today) then [fixed[0]] + ActiveTemplates(fixed[1..], today)
    else ActiveTemplates(fixed[1..], today)
  }

  /** `nextDate`: the start date moved forward (or back) by the whole months
      or years separating it from today. */
  function NextDate(e: FixedExpense, today: CalendarDate): (next: CalendarDate)
    ensures next.year == today.year
    ensures e.recurrence == Monthly ==>
      next.month == today.month && next.day == Min(e.startDate.day, DaysInMonth(today.year, today.month))
    ensures e.recurrence == Annual ==>
      next.month == e.startDate.month && next.day == Min(e.startDate.day, DaysInMonth(today.year, e.startDate.month))
  {
    if e.recurrence == Monthly then
      AddMonthsDifferenceLandsInMonth(e.startDate, today);
      AddMonths(e.startDate, MonthsDifference(e.startDate, today))
    else
      AddYearsDifferenceLandsInYear(e.startDate, today);
      AddYears(e.startDate, YearsDifference(e.startDate, today))
  }

  /** `shouldGenerate`, plus the start-date condition when `startGuard` is set. */
  function ShouldGenerate(policy: Policy, e: FixedExpense, today: CalendarDate): (due: bool)
    ensures due <==>
      && (policy.startGuard ==> AtOrBefore(e.startDate, today))
      && (e.recurrence == Annual ==> e.startDate.month == today.month)
      && Min(e.startDate.day, DaysInMonth(today.year, today.month)) <= today.day
  {
    var next := NextDate(e, today);
    && (policy.startGuard ==> AtOrBefore(e.startDate, today))
    && match e.recurrence
       case Monthly => IsSameMonth(next, today) && next.day <= today.day
       case Annual => IsSameYear(next, today) && next.month == today.month && next.day <= today.day
  }

  /** A monthly template is due exactly when its day of month, clamped to the
      length of the current month, has been reached. */
  lemma MonthlyDueIff(e: FixedExpense, today: CalendarDate)
    requires e.recurrence == Monthly
    ensures ShouldGenerate(AsWritten, e, today)
            <==> Min(e.startDate.day, DaysInMonth(today.year, today.month)) <= today.day
  {
  }

  /** An annual template is due exactly in its start month, once its day,
      clamped to that month's length this year, has been reached. */
  lemma AnnualDueIff(e: FixedExpense, today: CalendarDate)
    requires e.recurrence == Annual
    ensures ShouldGenerate(AsWritten, e, today)
            <==> && e.startDate.month == today.month
                 && Min(e.startDate.day, DaysInMonth(today.year, today.month)) <= today.day
  {
  }

  /** The due test reads only the start's day (monthly) or month and day
      (annual), never its year: two templates that differ only in the start
      year are due on the same days. */
  lemma DueIgnoresStartYear(e: FixedExpense, year: int, today: CalendarDate)
    requires ValidDate(Date(year, e.startDate.month, e.startDate.day))
    ensures ShouldGenerate(AsWritten, e, today)
            <==> ShouldGenerate(AsWritten, e.(startDate := Date(year, e.startDate.month, e.startDate.day)), today)
  {
    var e' := e.(startDate := Date(year, e.startDate.month, e.startDate.day));
    match e.recurrence
    case Monthly =>
      MonthlyDueIff(e, today);
      MonthlyDueIff(e', today);
    case Annual =>
      AnnualDueIff(e, today);
      AnnualDueIff(e', today);
  }

  // ---------------------------------------------------------------------------
  // De-duplication window

  /** Exclusive upper bound of the window. As written, `new Date(y, m + 1, 0)`
      is midnight at the start of the month's last day. */
  function WindowEnd(policy: Policy, today: CalendarDate): Date {
    if policy.wholeMonthWindow then FirstOfNextMonth(today) else LastOfMonth(today)
  }

  /** `date >= first of today's month && date < WindowEnd`, at day
      granularity. */
  function InWindow(policy: Policy, d: CalendarDate, today: CalendarDate): (inside: bool)
    ensures inside <==>
      && d.year == today.year && d.month == today.month
      && (!policy.wholeMonthWindow ==> d.day < DaysInMonth(today.year, today.month))
  {
    AtOrBefore(FirstOfMonth(today), d) && Before(d, WindowEnd(policy, today))
  }

  /** As written, the window is days 1 .. last-1 of today's month: records
      dated on the month's last day are never seen. */
  lemma WindowAsWrittenDays(d: CalendarDate, today: CalendarDate)
    ensures InWindow(AsWritten, d, today)
            <==> d.year == today.year && d.month == today.month
                 && d.day < DaysInMonth(today.year, today.month)
  {
  }

  /** Corrected, the window is the whole of today's month. */
  lemma WindowCorrectedDays(policy: Policy, d: CalendarDate, today: CalendarDate)
    requires policy.wholeMonthWindow
    ensures InWindow(policy, d, today) <==> d.year == today.year && d.month == today.month
  {
  }

  /** A generated record for template `e` already in the window. */
  predicate Matches(policy: Policy, v: VariableExpense, e: FixedExpense, today: CalendarDate) {
    && v.propertyId == e.propertyId
    && v.unitId == e.unitId
    && v.description == AutoDescription(e)
    && InWindow(policy, v.date, today)
  }

  predicate HasGenerated(policy: Policy, store: seq<VariableExpense>, e: FixedExpense, today: CalendarDate) {
    exists v | v in store :: Matches(policy, v, e, today)
  }

  lemma HasGeneratedGrows(policy: Policy, store: seq<VariableExpense>, store': seq<VariableExpense>,
                          e: FixedExpense, today: CalendarDate)
    requires store <= store'
    requires HasGenerated(policy, store, e, today)
    ensures HasGenerated(policy, store', e, today)
  {
    var v :| v in store && Matches(policy, v, e, today);
    var k :| 0 <= k < |store| && store[k] == v;
    assert store'[k] == v;
  }

  // ---------------------------------------------------------------------------
  // The run

  /** The record created for template `e`. */
  function AutoExpense(e: FixedExpense, today: CalendarDate): (v: VariableExpense)
    ensures v.propertyId == e.propertyId && v.unitId == e.unitId && v.amount == e.amount
    ensures v.date == today
    ensures v.description == AutoDescription(e)
    ensures v.category == MonthlyCategory <==> e.recurrence == Monthly
    ensures v.category == AnnualCategory <==> e.recurrence == Annual
  {
    VariableExpense(e.propertyId, e.unitId, today, AutoDescription(e), e.amount,
                    if e.recurrence == Monthly then MonthlyCategory else AnnualCategory)
  }

  /** The table and `generatedCount` as the loop goes. */
  datatype RunState = RunState(store: seq<VariableExpense>, generated: nat)

  /** One iteration of the loop. `failing` holds the ids of templates whose
      store calls throw during this run: the error is caught, nothing is
      written for that template and the loop goes on. */
  function Step(policy: Policy, today: CalendarDate, failing: set<string>,
                st: RunState, e: FixedExpense): (r: RunState)
    ensures st.store <= r.store && |r.store| <= |st.store| + 1
    ensures r.generated == st.generated + (|r.store| - |st.store|)
    ensures |r.store| == |st.store| + 1 <==>
      ShouldGenerate(policy, e, today) && e.id !in failing && !HasGenerated(policy, st.store, e, today)
    ensures |r.store| == |st.store| + 1 ==> r.store[|st.store|] == AutoExpense(e, today)
    ensures ShouldGenerate(policy, e, today) && e.id !in failing && InWindow(policy, today, today)
            ==> HasGenerated(policy, r.store, e, today)
  {
    if ShouldGenerate(policy, e, today) && e.id !in failing && !HasGenerated(policy, st.store, e, today) then
      var v := AutoExpense(e, today);
      assert v in st.store + [v];
      RunState(st.store + [v], st.generated + 1)
    else st
  }

  /** The `for` loop as a left fold over the templates. */
  function Process(policy: Policy, today: CalendarDate, failing: set<string>,
                   st: RunState, ts: seq<FixedExpense>): (r: RunState)
    decreases |ts|
    ensures st.store <= r.store
    ensures r.generated == st.generated + (|r.store| - |st.store|)
    ensures |r.store| <= |st.store| + |ts|
    ensures forall i | |st.store| <= i < |r.store| ::
      exists e | e in ts :: r.store[i] == AutoExpense(e, today)
                            && ShouldGenerate(policy, e, today) && e.id !in failing
  {
    if |ts| == 0 then st
    else
      var mid := Step(policy, today, failing, st, ts[0]);
      var r := Process(policy, today, failing, mid, ts[1..]);
      assert forall i | |st.store| <= i < |r.store| ::
        exists e | e in ts :: r.store[i] == AutoExpense(e, today)
                              && ShouldGenerate(policy, e, today) && e.id !in failing
      by {
        forall i | |st.store| <= i < |r.store|
          ensures exists e | e in ts :: r.store[i] == AutoExpense(e, today)
                                        && ShouldGenerate(policy, e, today) && e.id !in failing
        {
          if i < |mid.store| {
            assert r.store[i] == mid.store[i] == AutoExpense(ts[0], today);
            assert ShouldGenerate(policy, ts[0], today) && ts[0].id !in failing;
            assert ts[0] in ts;
          } else {
            var e :| e in ts[1..] && r.store[i] == AutoExpense(e, today)
                     && ShouldGenerate(policy, e, today) && e.id !in failing;
            assert e in ts;
          }
        }
      }
      r
  }

  /** `generateFixedExpenses()` on a given day. */
  function Generate(policy: Policy, fixed: seq<FixedExpense>, store: seq<VariableExpense>,
                    today: CalendarDate, failing: set<string>): (r: RunState)
    ensures store <= r.store
    ensures r.generated == |r.store| - |store|
    ensures r.generated <= |ActiveTemplates(fixed, today)|
    ensures forall v | v in r.store[|store|..] ::
      exists e | e in fixed :: && v == AutoExpense(e, today)
                               && IsActive(e, today) && ShouldGenerate(policy, e, today)
                               && e.id !in failing
    ensures InWindow(policy, today, today) ==>
      forall e | e in fixed && IsActive(e, today) && ShouldGenerate(policy, e, today) && e.id !in failing ::
        HasGenerated(policy, r.store, e, today)
    ensures !InWindow(policy, today, today) ==>
      forall e | && e in fixed && IsActive(e, today) && ShouldGenerate(policy, e, today) && e.id !in failing
                 && !HasGenerated(policy, store, e, today) ::
        AutoExpense(e, today) in r.store[|store|..]
    ensures forall e | HasGenerated(policy, store, e, today) :: AutoExpense(e, today) !in r.store[|store|..]
  {
    var active := ActiveTemplates(fixed, today);
    var r := Process(policy, today, failing, RunState(store, 0), active);
    forall v | v in r.store[|store|..]
      ensures exists e | e in fixed :: && v == AutoExpense(e, today)
                                       && IsActive(e, today) && ShouldGenerate(policy, e, today)
                                       && e.id !in failing
    {
      var k :| 0 <= k < |r.store[|store|..]| && r.store[|store|..][k] == v;
      assert r.store[|store| + k] == v;
      var e :| e in active && v == AutoExpense(e, today)
               && ShouldGenerate(policy, e, today) && e.id !in failing;
      assert e in fixed && IsActive(e, today);
    }
    forall e | HasGenerated(policy, store, e, today)
      ensures AutoExpense(e, today) !in r.store[|store|..]
    {
      ProcessSkipsGenerated(policy, today, failing, RunState(store, 0), active, e);
    }
    if InWindow(policy, today, today) then
      ProcessLeavesRecords(policy, today, failing, RunState(store, 0), active);
      r
    else
      ProcessCreatesOutsideWindow(policy, today, failing, RunState(store, 0), active);
      r
  }

  // ---------------------------------------------------------------------------
  // Properties of a run

  /** A run over a single template creates that template's record exactly
      when it is active, due, not failing and has no record in the window. */
  lemma SingleTemplateRun(policy: Policy, e: FixedExpense, store: seq<VariableExpense>,
                          today: CalendarDate, failing: set<string>)
    ensures Generate(policy, [e], store, today, failing)
            == if && IsActive(e, today) && ShouldGenerate(policy, e, today) && e.id !in failing
                  && !HasGenerated(policy, store, e, today)
               then RunState(store + [AutoExpense(e, today)], 1)
               else RunState(store, 0)
  {
    assert [e][1..] == [];
    assert ActiveTemplates([e], today) == if IsActive(e, today) then [e] else [];
  }

  /** The `findMany` filter distributes over concatenation of template lists. */
  lemma {:induction false} ActiveTemplatesAppend(a: seq<FixedExpense>, b: seq<FixedExpense>, today: CalendarDate)
    ensures ActiveTemplates(a + b, today) == ActiveTemplates(a, today) + ActiveTemplates(b, today)
  {
    if |a| > 0 {
      assert (a + b)[1..] == a[1..] + b;
      ActiveTemplatesAppend(a[1..], b, today);
    } else {
      assert a + b == b;
    }
  }

  /** A template whose end date is before today takes no part in a run:
      removing it from the list, wherever it stands, changes nothing. */
  lemma ExpiredTemplateIgnored(policy: Policy, before: seq<FixedExpense>, e: FixedExpense,
                               after: seq<FixedExpense>, store: seq<VariableExpense>,
                               today: CalendarDate, failing: set<string>)
    requires e.endDate.Some? && Before(e.endDate.value, today)
    ensures Generate(policy, before + [e] + after, store, today, failing)
            == Generate(policy, before + after, store, today, failing)
  {
    ActiveTemplatesAppend(before + [e], after, today);
    ActiveTemplatesAppend(before, [e], today);
    ActiveTemplatesAppend(before, after, today);
    assert [e][1..] == [];
    assert ActiveTemplates([e], today) == [];
    assert ActiveTemplates(before + [e], today) == ActiveTemplates(before, today);
  }

  /** Folding over two lists in a row is folding over their concatenation. */
  lemma {:induction false} ProcessAppend(policy: Policy, today: CalendarDate, failing: set<string>,
                                         st: RunState, a: seq<FixedExpense>, b: seq<FixedExpense>)
    ensures Process(policy, today, failing, st, a + b)
            == Process(policy, today, failing, Process(policy, today, failing, st, a), b)
    decreases |a|
  {
    if |a| == 0 {
      assert a + b == b;
    } else {
      assert (a + b)[0] == a[0];
      assert (a + b)[1..] == a[1..] + b;
      ProcessAppend(policy, today, failing, Step(policy, today, failing, st, a[0]), a[1..], b);
    }
  }

  /** A template whose store calls throw is skipped and the run carries on
      exactly as if it were absent, wherever it stands in the list. */
  lemma FailureSkipsOnlyThatTemplate(policy: Policy, before: seq<FixedExpense>, e: FixedExpense,
                                     after: seq<FixedExpense>, store: seq<VariableExpense>,
                                     today: CalendarDate, failing: set<string>)
    requires e.id in failing
    ensures Generate(policy, before + [e] + after, store, today, failing)
            == Generate(policy, before + after, store, today, failing)
  {
    ActiveTemplatesAppend(before + [e], after, today);
    ActiveTemplatesAppend(before, [e], today);
    ActiveTemplatesAppend(before, after, today);
    var front := ActiveTemplates(before, today);
    var back := ActiveTemplates(after, today);
    var mine := ActiveTemplates([e], today);
    var st := RunState(store, 0);
    ProcessAppend(policy, today, failing, st, front + mine, back);
    ProcessAppend(policy, today, failing, st, front, mine);
    ProcessAppend(policy, today, failing, st, front, back);
    var mid := Process(policy, today, failing, st, front);
    assert Process(policy, today, failing, mid, mine) == mid by {
      assert [e][1..] == [];
      assert mine == [] || mine == [e];
      assert Step(policy, today, failing, mid, e) == mid;
    }
  }

  /** After a fold, every due template whose store calls did not throw has
      a record in the window, provided today itself falls inside the window;
      a failing template does not stop the others. */
  lemma {:induction false} ProcessLeavesRecords(policy: Policy, today: CalendarDate, failing: set<string>,
                                                st: RunState, ts: seq<FixedExpense>)
    requires InWindow(policy, today, today)
    ensures forall e | e in ts && ShouldGenerate(policy, e, today) && e.id !in failing ::
      HasGenerated(policy, Process(policy, today, failing, st, ts).store, e, today)
    decreases |ts|
  {
    if |ts| > 0 {
      var mid := Step(policy, today, failing, st, ts[0]);
      var r := Process(policy, today, failing, mid, ts[1..]);
      assert r == Process(policy, today, failing, st, ts);
      ProcessLeavesRecords(policy, today, failing, mid, ts[1..]);
      if ShouldGenerate(policy, ts[0], today) && ts[0].id !in failing {
        HasGeneratedGrows(policy, mid.store, r.store, ts[0], today);
      }
      forall e | e in ts && ShouldGenerate(policy, e, today) && e.id !in failing
        ensures HasGenerated(policy, r.store, e, today)
      {
        if e != ts[0] {
          assert e in ts[1..];
        }
      }
    }
  }

  /** When today is outside the window (as written, the last day of the
      month), a record created during the fold never counts as a match, so
      every due, non-failing template without a record beforehand gets one
      of its own. */
  lemma {:induction false} ProcessCreatesOutsideWindow(policy: Policy, today: CalendarDate, failing: set<string>,
                                                       st: RunState, ts: seq<FixedExpense>)
    requires !InWindow(policy, today, today)
    ensures forall e | e in ts && ShouldGenerate(policy, e, today) && e.id !in failing
                       && !HasGenerated(policy, st.store, e, today) ::
      AutoExpense(e, today) in Process(policy, today, failing, st, ts).store[|st.store|..]
    decreases |ts|
  {
    if |ts| > 0 {
      var mid := Step(policy, today, failing, st, ts[0]);
      var r := Process(policy, today, failing, mid, ts[1..]);
      assert r == Process(policy, today, failing, st, ts);
      ProcessCreatesOutsideWindow(policy, today, failing, mid, ts[1..]);
      forall e | e in ts && ShouldGenerate(policy, e, today) && e.id !in failing
                 && !HasGenerated(policy, st.store, e, today)
        ensures AutoExpense(e, today) in r.store[|st.store|..]
      {
        if e == ts[0] {
          assert r.store[|st.store|] == mid.store[|st.store|] == AutoExpense(e, today);
          assert r.store[|st.store|..][0] == AutoExpense(e, today);
        } else {
          assert e in ts[1..];
          StepOutsideWindowAddsNoMatch(policy, today, failing, st, ts[0], e);
          InLaterSuffix(r.store, |st.store|, |mid.store|, AutoExpense(e, today));
        }
      }
    }
  }

  /** Outside the window, a step's new record (dated today) matches no
      template, so whether a template has a record is unchanged. */
  lemma StepOutsideWindowAddsNoMatch(policy: Policy, today: CalendarDate, failing: set<string>,
                                     st: RunState, e: FixedExpense, other: FixedExpense)
    requires !InWindow(policy, today, today)
    ensures HasGenerated(policy, Step(policy, today, failing, st, e).store, other, today)
            == HasGenerated(policy, st.store, other, today)
  {
    var mid := Step(policy, today, failing, st, e);
    if HasGenerated(policy, mid.store, other, today) {
      var v :| v in mid.store && Matches(policy, v, other, today);
      var k :| 0 <= k < |mid.store| && mid.store[k] == v;
      assert k < |st.store| && st.store[k] == v;
    } else if HasGenerated(policy, st.store, other, today) {
      HasGeneratedGrows(policy, st.store, mid.store, other, today);
    }
  }

  lemma InLaterSuffix<T>(s: seq<T>, i: nat, j: nat, x: T)
    requires i <= j <= |s| && x in s[j..]
    ensures x in s[i..]
  {
    var k :| 0 <= k < |s[j..]| && s[j..][k] == x;
    assert s[i..][k + j - i] == x;
  }

  /** A template that already has a record in the window never gets a new
      one during the fold, whatever the other templates do: a step that
      created the same record would belong to a template with the same
      property, unit and description, which already had that record too. */
  lemma {:induction false} ProcessSkipsGenerated(policy: Policy, today: CalendarDate, failing: set<string>,
                                                 st: RunState, ts: seq<FixedExpense>, e: FixedExpense)
    requires HasGenerated(policy, st.store, e, today)
    ensures AutoExpense(e, today) !in Process(policy, today, failing, st, ts).store[|st.store|..]
    decreases |ts|
  {
    if |ts| > 0 {
      var mid := Step(policy, today, failing, st, ts[0]);
      var r := Process(policy, today, failing, mid, ts[1..]);
      assert r == Process(policy, today, failing, st, ts);
      HasGeneratedGrows(policy, st.store, mid.store, e, today);
      ProcessSkipsGenerated(policy, today, failing, mid, ts[1..], e);
      StepNeverRecreates(policy, today, failing, st, ts[0], e);
      forall j | |st.store| <= j < |r.store|
        ensures r.store[j] != AutoExpense(e, today)
      {
        if j >= |mid.store| {
          assert r.store[j] == r.store[|mid.store|..][j - |mid.store|];
        }
      }
    }
  }

  /** A step never appends the record of a template that already has one:
      the record it appends would match the same existing records. */
  lemma StepNeverRecreates(policy: Policy, today: CalendarDate, failing: set<string>,
                           st: RunState, t: FixedExpense, e: FixedExpense)
    requires HasGenerated(policy, st.store, e, today)
    ensures forall j | |st.store| <= j < |Step(policy, today, failing, st, t).store| ::
              Step(policy, today, failing, st, t).store[j] != AutoExpense(e, today)
  {
    if AutoExpense(t, today) == AutoExpense(e, today) {
      SameRecordSameMatches(policy, st.store, t, e, today);
    }
  }

  /** Two templates that would create the same record are matched by the
      same existing records. */
  lemma SameRecordSameMatches(policy: Policy, store: seq<VariableExpense>, a: FixedExpense,
                              b: FixedExpense, today: CalendarDate)
    requires AutoExpense(a, today) == AutoExpense(b, today)
    ensures HasGenerated(policy, store, a, today) == HasGenerated(policy, store, b, today)
  {
    forall v | v in store
      ensures Matches(policy, v, a, today) == Matches(policy, v, b, today)
    {
    }
  }

  /** A fold over templates that all already have their record changes
      nothing and counts nothing, whatever fails. */
  lemma {:induction false} ProcessIsNoOpWhenAllGenerated(policy: Policy, today: CalendarDate,
                                                         failing: set<string>, st: RunState,
                                                         ts: seq<FixedExpense>)
    requires forall e | e in ts && ShouldGenerate(policy, e, today) :: HasGenerated(policy, st.store, e, today)
    ensures Process(policy, today, failing, st, ts) == st
    decreases |ts|
  {
    if |ts| > 0 {
      assert Step(policy, today, failing, st, ts[0]) == st;
      assert forall e | e in ts[1..] :: e in ts;
      ProcessIsNoOpWhenAllGenerated(policy, today, failing, st, ts[1..]);
    }
  }

  /** Whenever today lies in the de-duplication window, a second run on the
      same day after a run without failures creates nothing. */
  lemma RerunCreatesNothing(policy: Policy, fixed: seq<FixedExpense>, store: seq<VariableExpense>,
                            today: CalendarDate, failing: set<string>)
    requires InWindow(policy, today, today)
    ensures var first := Generate(policy, fixed, store, today, {});
            Generate(policy, fixed, first.store, today, failing) == RunState(first.store, 0)
  {
    var active := ActiveTemplates(fixed, today);
    var first := Process(policy, today, {}, RunState(store, 0), active);
    ProcessLeavesRecords(policy, today, {}, RunState(store, 0), active);
    ProcessIsNoOpWhenAllGenerated(policy, today, failing, RunState(first.store, 0), active);
  }

  /** The script is idempotent on every day but the last of the month. */
  lemma RerunIdempotentAsWritten(fixed: seq<FixedExpense>, store: seq<VariableExpense>,
                                 today: CalendarDate, failing: set<string>)
    requires today.day < DaysInMonth(today.year, today.month)
    ensures var first := Generate(AsWritten, fixed, store, today, {});
            Generate(AsWritten, fixed, first.store, today, failing) == RunState(first.store, 0)
  {
    WindowAsWrittenDays(today, today);
    RerunCreatesNothing(AsWritten, fixed, store, today, failing);
  }

  /** On the last day of the month the window as written excludes the record
      the first run just created, so a second run creates it again. */
  lemma LastDayRerunDuplicates(e: FixedExpense, today: CalendarDate)
    requires today.day == DaysInMonth(today.year, today.month)
    requires IsActive(e, today) && ShouldGenerate(AsWritten, e, today)
    ensures var first := Generate(AsWritten, [e], [], today, {});
            var second := Generate(AsWritten, [e], first.store, today, {});
            && first == RunState([AutoExpense(e, today)], 1)
            && second == RunState([AutoExpense(e, today), AutoExpense(e, today)], 1)
  {
    assert ActiveTemplates([e], today) == [e];
    var v := AutoExpense(e, today);
    WindowAsWrittenDays(today, today);
    assert !HasGenerated(AsWritten, [v], e, today);
    assert [v] + [v] == [v, v];
  }

  /** With the window corrected to the whole month, the second run creates
      nothing on every day, the last included. */
  lemma RerunIdempotentCorrected(policy: Policy, fixed: seq<FixedExpense>, store: seq<VariableExpense>,
                                 today: CalendarDate, failing: set<string>)
    requires policy.wholeMonthWindow
    ensures var first := Generate(policy, fixed, store, today, {});
            Generate(policy, fixed, first.store, today, failing) == RunState(first.store, 0)
  {
    WindowCorrectedDays(policy, today, today);
    RerunCreatesNothing(policy, fixed, store, today, failing);
  }

  /** As written, a monthly template whose start date is still in the future
      is due as soon as today's day reaches the start's day. */
  lemma FutureStartIsDueAsWritten(e: FixedExpense, today: CalendarDate)
    requires e.recurrence == Monthly
    requires Before(today, e.startDate) && e.startDate.day <= today.day
    ensures ShouldGenerate(AsWritten, e, today)
    ensures !ShouldGenerate(AsWritten.(startGuard := true), e, today)
  {
    MonthlyDueIff(e, today);
  }

  /** With the start-date condition, no run ever creates a record for a
      template that has not started yet. */
  lemma CorrectedNeverBeforeStart(policy: Policy, fixed: seq<FixedExpense>, store: seq<VariableExpense>,
                                  today: CalendarDate, failing: set<string>)
    requires policy.startGuard
    ensures forall v | v in Generate(policy, fixed, store, today, failing).store[|store|..] ::
              exists e | e in fixed :: v == AutoExpense(e, today) && AtOrBefore(e.startDate, today)
  {
    var r := Generate(policy, fixed, store, today, failing);
    forall v | v in r.store[|store|..]
      ensures exists e | e in fixed :: v == AutoExpense(e, today) && AtOrBefore(e.startDate, today)
    {
      var e :| e in fixed && v == AutoExpense(e, today) && ShouldGenerate(policy, e, today);
      CorrectedDueOnlyAfterStart(policy, e, today);
    }
  }

  lemma CorrectedDueOnlyAfterStart(policy: Policy, e: FixedExpense, today: CalendarDate)
    requires policy.startGuard && ShouldGenerate(policy, e, today)
    ensures AtOrBefore(e.startDate, today)
  {
  }
}

=== FILE: optional.dfy ===
/** A value that may be absent: the model's stand-in for a nullable column or
    an unset request parameter. */
module Optional {

  datatype Option<+T> = None | Some(value: T)
}

=== FILE: scenarios.dfy ===
/**
  Concrete cases of the booking guard and the expense generator, using the
  seed fixture's templates (`prisma/seed.ts`) as values. Booking instants are
  written as yyyymmdd numbers, which order like the days they name.
*/
module Scenarios {
  import opened Optional
  import opened Calendar
  import opened Bookings
  import opened FixedExpenses

  function Stay(id: BookingId, unitId: string, start: Instant, end: Instant): Booking {
    Booking(id, unitId, "guest-1", start, end, 480.0, "direct", None)
  }

  /** Unit U holds 1-7 August; a new stay 7-10 August on U is refused because
      the boundary day counts, while the same stay on another unit is
      created. */
  lemma TouchingStayConflicts()
    ensures var store := [Stay(1, "U", 20240801, 20240807)];
            var onU := BookingData("U", "guest-2", 20240807, 20240810, 300.0, "airbnb", None);
            var onV := onU.(unitId := "V");
            && Post(Some(Staff), store, onU) == Reply(StatusConflict, store)
            && Post(Some(Staff), store, onV).status == StatusCreated
            && Post(Some(Viewer), store, onV) == Reply(StatusUnauthorized, store)
  {
    var store := [Stay(1, "U", 20240801, 20240807)];
    assert Blocks(store[0], "U", 20240807, 20240810, None);
  }

  /** Moving a stay onto a unit where it collides is refused even though it
      collided with nothing on its old unit; moving it where it is free
      succeeds. */
  lemma PutChecksTargetUnit()
    ensures var store := [Stay(1, "U", 20240801, 20240807), Stay(2, "V", 20240805, 20240809)];
            var toV := ResaveBody(store[0]).(unitId := "V");
            var toW := ResaveBody(store[0]).(unitId := "W");
            && Put(Some(Admin), store, 1, toV) == Reply(StatusConflict, store)
            && Put(Some(Admin), store, 1, toW).status == StatusOk
            && Put(Some(Admin), store, 3, toW) == Reply(StatusServerError, store)
  {
    var store := [Stay(1, "U", 20240801, 20240807), Stay(2, "V", 20240805, 20240809)];
    assert Blocks(store[1], "V", 20240801, 20240807, Some(1));
    assert HasId(store, 1);
  }

  /** The calendar's drag-and-drop sends only the unit and the dates: the
      moved stay keeps its guest, price, source and notes. */
  lemma DragAndDropKeepsDetails()
    ensures var store := [Stay(1, "U", 20240801, 20240807)];
            var drop := BookingUpdate("V", 20240810, 20240814, Omitted, Omitted, Omitted, Omitted);
            Put(Some(Staff), store, 1, drop) == Reply(StatusOk, [Stay(1, "V", 20240810, 20240814)])
  {
    var store := [Stay(1, "U", 20240801, 20240807)];
    var drop := BookingUpdate("V", 20240810, 20240814, Omitted, Omitted, Omitted, Omitted);
    assert HasId(store, 1);
    assert !Blocks(store[0], "V", 20240810, 20240814, Some(1));
    var r := Put(Some(Staff), store, 1, drop);
    assert r.status == StatusOk;
    assert Updated(r.store[0], store[0], drop);
  }

  const Rent: FixedExpense :=
    FixedExpense("fe-rent", "property-1", None, "Affitto", 1500.0, Monthly, Date(2024, 1, 1), None)

  const Insurance: FixedExpense :=
    FixedExpense("fe-insurance", "property-1", None, "Assicurazione", 1200.0, Annual, Date(2024, 1, 1), None)

  /** The monthly rent template is due on 1 August 2024 and generates one
      record; a run on 15 August, still due, finds that record and creates
      nothing. */
  lemma MonthlyRentOncePerMonth(first: CalendarDate, later: CalendarDate)
    requires first == Date(2024, 8, 1) && later == Date(2024, 8, 15)
    ensures var run := Generate(AsWritten, [Rent], [], first, {});
            && run == RunState([AutoExpense(Rent, first)], 1)
            && ShouldGenerate(AsWritten, Rent, later)
            && Generate(AsWritten, [Rent], run.store, later, {}) == RunState(run.store, 0)
  {
    assert Rent.recurrence == Monthly && Rent.startDate.day == 1 && Rent.endDate.None?;
    var v := AutoExpense(Rent, first);
    SingleTemplateRun(AsWritten, Rent, [], first, {});
    assert [] + [v] == [v];
    assert Matches(AsWritten, v, Rent, later);
    SingleTemplateRun(AsWritten, Rent, [v], later, {});
  }

  /** The annual insurance template of 1200 generates exactly one record on
      1 January 2025, dated that day and filed as an annual expense. */
  lemma AnnualInsuranceInJanuary(today: CalendarDate)
    requires today == Date(2025, 1, 1)
    ensures Generate(AsWritten, [Insurance], [], today, {})
            == RunState([VariableExpense("property-1", None, today, "[Auto] " + "Assicurazione",
                                         1200.0, "Spese Annuali")], 1)
  {
    var v := AutoExpense(Insurance, today);
    assert Generate(AsWritten, [Insurance], [], today, {}) == RunState([v], 1) by {
      assert Insurance.recurrence == Annual && Insurance.startDate.month == 1 && Insurance.endDate.None?;
      SingleTemplateRun(AsWritten, Insurance, [], today, {});
      assert [] + [v] == [v];
    }
    assert v == VariableExpense("property-1", None, today, "[Auto] " + "Assicurazione", 1200.0, "Spese Annuali");
  }

  /** The same template is not due on 1 February 2025. */
  lemma AnnualInsuranceNotInFebruary(today: CalendarDate)
    requires today == Date(2025, 2, 1)
    ensures Generate(AsWritten, [Insurance], [], today, {}) == RunState([], 0)
  {
    assert Insurance.recurrence == Annual && Insurance.startDate.month == 1;
    SingleTemplateRun(AsWritten, Insurance, [], today, {});
  }

  /** A rent template ended in July 2024 generates nothing in August. */
  lemma EndedTemplateSilent()
    ensures var ended := Rent.(endDate := Some(Date(2024, 7, 31)));
            Generate(AsWritten, [ended], [], Date(2024, 8, 1), {}) == RunState([], 0)
  {
    var ended := Rent.(endDate := Some(Date(2024, 7, 31)));
    assert ActiveTemplates([ended], Date(2024, 8, 1)) == [];
  }

  /** A rent template starting on 5 March 2025 is already due on 10 January
      2025 as written. */
  lemma FutureRentDueInJanuary()
    ensures var future := Rent.(startDate := Date(2025, 3, 5));
            && Before(Date(2025, 1, 10), future.startDate)
            && ShouldGenerate(AsWritten, future, Date(2025, 1, 10))
            && !ShouldGenerate(Corrected, future, Date(2025, 1, 10))
  {
    var future := Rent.(startDate := Date(2025, 3, 5));
    FutureStartIsDueAsWritten(future, Date(2025, 1, 10));
  }

  /** Running the rent template twice on 31 January 2024 yields a second
      record as written. */
  lemma LastDayOfJanuaryAsWritten(today: CalendarDate)
    requires today == Date(2024, 1, 31)
    ensures var first := Generate(AsWritten, [Rent], [], today, {});
            var second := Generate(AsWritten, [Rent], first.store, today, {});
            && first == RunState([AutoExpense(Rent, today)], 1)
            && second == RunState([AutoExpense(Rent, today), AutoExpense(Rent, today)], 1)
  {
    assert today.day == DaysInMonth(today.year, today.month);
    assert IsActive(Rent, today) && ShouldGenerate(AsWritten, Rent, today) by {
      assert Rent.recurrence == Monthly && Rent.startDate.day == 1;
    }
    LastDayRerunDuplicates(Rent, today);
  }

  /** With the corrected window, the second run on 31 January 2024 creates
      nothing. */
  lemma LastDayOfJanuaryCorrected(today: CalendarDate)
    requires today == Date(2024, 1, 31)
    ensures var first := Generate(Corrected, [Rent], [], today, {});
            Generate(Corrected, [Rent], first.store, today, {}).generated == 0
  {
    RerunIdempotentCorrected(Corrected, [Rent], [], today, {});
  }
}
